=== FILE: README.md ===
# Entity attribute facade, error state and console polyfills of Qpid Dispatch

This Dafny project models three small pieces of the Qpid Dispatch router:

- the **entity attribute facade** (`src/entity.c`, documented in `src/entity_private.h`). It gives typed get, set, has and clear operations on a managed entity, which in the router is a Python object;
- the **error state** (`src/error.c`). This is a per-thread `(code, message)` pair. `qd_error` raises an error, `qd_error_clear` resets the pair, `qd_error_code` and `qd_error_message` read it, and `qd_error_py` turns a pending Python exception into a `PYTHON` error;
- three **JavaScript polyfills** from the stand-alone console (`qdrService.js`): `String.prototype.startsWith`, `String.prototype.endsWith` and `Array.prototype.findIndex`.

The model is made of pure functions over immutable values. There is one exception: `findIndex` is a method with a loop, like the source.

- `Entity.Entity` is a `map<string, Value>` with `Value = Str | Unicode | Int | Bool | List`. It stands in for the Python mapping object. Every mutator returns the new map.
- `Errors.Context` is the thread-local state written out as a value. It holds:
  - the error state `err` (code and message);
  - the Python interpreter's pending exception, `pending: Option<PyException>`. A `PyException` says how `str()` of its value turns out (no value, a text, or a further exception) and how the traceback formatting turns out (no traceback, a text, or a further exception);
  - `log`, the records written at error level to the `ERROR` log source.
- Every operation takes a context and returns the next one. The Python calls that can raise an exception put it in `pending`. The bridge (`Errors.Bridge`, which is `qd_error_py`) consumes it from there, so the model can state that a given exception is observed only once.
- The log is an ordinary field, not a ghost one. That way, claims such as "exactly one record per raised error" are part of contracts that can be checked.

Modules: `Wrappers` (Option and Result), `Text` (`%d` numerals, reading them back, and truncation to a bounded buffer), `Errors` (`src/error.c`), `Entity` (`src/entity.c`) and `Polyfills` (`qdrService.js`).

Constants:
- The error kinds and their names come from the table in `src/error.c`.
- `ERROR_MAX` is the log module's `QD_LOG_TEXT_MAX`, which is 2048. The log header is not part of this model.
- A C `long` is taken to be 64 bits wide, as on LP64 platforms.
- Error codes are non-negative `int`s, because the `qd_error_t` enumerators are non-negative.

Where the documentation and the code disagree, the model follows the code:
- `qd_entity_opt_*` return the default for a missing attribute without clearing the error state.
- The header comment of `qd_entity_opt_string` (src/entity_private.h:51-55) promises a copy of the default "if there is an error". The code (src/entity.c:80-86) returns the string getter's null with the error set when a present attribute does not convert; the model returns null.
- `startsWith` and `endsWith` behave as the polyfill code does, not as the ECMAScript standard does. The two differences are listed under Findings.

## Model

| member | source | states |
|---|---|---|
| Errors.NameTable | src/error.c:28-38 | The name table has exactly `QD_ERROR_COUNT` (7) entries. The names are distinct, short, free of ':' and start with a letter. |
| Errors.Format | src/error.c:57-65 | The message buffer keeps the whole kind prefix, then as much of the text as fits. It is always shorter than `ERROR_MAX`, and it is a prefix of prefix + text. It equals prefix + text when that fits, and otherwise it is exactly `ERROR_MAX - 1` characters. |
| Errors.Raise | src/error.c:55-72 | `qd_error` returns its code and stores it as the current code. A non-zero code gives a message that starts with `"<name>: "` (or `"<number>: "` past the table) and is shorter than `ERROR_MAX`, and appends exactly that message to the log. Code 0 clears and logs nothing. The pending exception is untouched. |
| Errors.Clear | src/error.c:75-78 | After `qd_error_clear` the code is 0 and the message is "No Error". Neither the log nor the pending exception changes. |
| Errors.Code | src/error.c:84-86 | `qd_error_code` reads the current code. In a well-formed state it is 0 exactly when the message is "No Error". The thread's initial state is not well formed (see `Errors.InitialState`). |
| Errors.InitialState | src/error.c:43-47 | Before its first call a thread's state is the zero-initialised pair: `qd_error_code` gives 0 and `qd_error_message` gives "", not "No Error", so that state is not well formed. One `qd_error_clear`, `qd_error` or `qd_error_py` makes it well formed; `qd_error_py` with nothing pending then reads "No Error". |
| Errors.Message | src/error.c:80-82 | `qd_error_message` reads the current message. In a well-formed state it is shorter than `ERROR_MAX`, and for a non-zero code the text before its first ": " names that code. |
| Errors.ClearedIffNoErrorText | src/error.c:57-78 | In a well-formed state, code 0 and the message "No Error" go together in both directions, because no kind prefix can produce "No Error". |
| Errors.AccessorsAfterRaise | src/error.c:80-86 | After a raise, `qd_error_code` reads back the raised code. `qd_error_message` reads back a message that carries the kind prefix, and also the whole text when it fits. |
| Errors.LogTrace | src/error.c:101-125 | `log_trace_py` leaves the error state alone. It logs the rendered traceback as one record when the value is non-null and the traceback renders, and logs nothing otherwise. When the value is non-null and the formatting raises, that exception becomes the pending one; otherwise the pending exception is unchanged. |
| Errors.Bridge | src/error.c:101-146 | `qd_error_py` with nothing pending clears, returns 0 and logs nothing. With an exception pending, it fetches it and returns `PYTHON`, and the state stays well formed. The message is `"Python: "` followed by the value text up to its first NUL (a `%s` of a C string), or by "Unknown" when there is no value or `str()` of it raises. The log gains that message, plus the traceback record, likewise cut at its first NUL, when the value is non-null and the traceback renders. An exception raised by `str()` of the value or by the traceback formatting is left pending. |
| Errors.BridgeObservedOnce | src/error.c:128-130 | An exception whose value and traceback render without raising is seen once. A second bridge finds nothing pending, clears, returns 0 and logs nothing more. |
| Errors.BridgeRenderFailureObservedAgain | src/error.c:116-132 | When rendering the value or the traceback raised, that second exception is still pending. The next bridge reports it as a new `PYTHON` error and logs its message after everything the first bridge logged. |
| Errors.BridgeClearsEarlierError | src/error.c:142-145 | Raising any error and then bridging with nothing pending leaves code 0 and "No Error". The raised error does not survive. |
| Errors.BridgeUnknown | src/error.c:132-134 | An exception with a null value, or whose `str()` raises, yields the message "Python: Unknown". |
| Errors.MessageNamesCode | src/error.c:59-62 | A raised message names its code unambiguously. Reading the kind name or the number before the first ": " gives back the raised code. |
| Errors.PrefixNamesCode | src/error.c:59-62 | Any message that starts with a non-zero code's prefix decodes to that code. |
| Text.DecimalRoundTrip | src/error.c:62 | The numeral `%d` prints for a code reads back as that code. |
| Text.CString | src/entity.c:53-54 | A C string keeps the part of a text before its first NUL: the result is a prefix of the text, holds no NUL, and is the whole text unless a NUL follows it. |
| Text.CStringKeepsPlain | src/entity.c:53-54 | A text passes through a C string unchanged exactly when it holds no NUL. |
| Text.DecimalLength | src/error.c:62 | A number below 10^k prints in at most k digits, so a code's prefix fits the buffer. |
| Entity.GetItem | src/entity.c:34-40 | The lookup yields a value exactly when the attribute is a key, and then the attribute's value with nothing else changed. A missing key leaves a `KeyError` pending and does not touch the error state or the log. |
| Entity.AsLong | src/entity.c:64 | `PyInt_AsLong` succeeds exactly for booleans and for integers within the C `long` range. An integer converts to itself, `True` to 1 and `False` to 0. |
| Entity.IsTrue | src/entity.c:73 | `PyObject_IsTrue` agrees with the other conversions: a value that `PyInt_AsLong` converts is true iff the converted `long` is non-zero, and a string whose `str()` succeeds is true iff that text is non-empty. |
| Entity.ToText | src/entity.c:52-53 | `str()` fails exactly for a `unicode` value with a non-ASCII character. A byte string converts to itself, and an ASCII `unicode` string to its characters. |
| Entity.Has | src/entity.c:42-47 | `has` is true iff the attribute is a key of the entity. The probe's exception is discarded, and the error state and log are unchanged. |
| Entity.GetString | src/entity.c:49-59 | A present attribute whose `str()` succeeds gives that text up to its first NUL, the part `strdup` copies, with the error cleared and nothing logged. A missing attribute, or one whose conversion raises, gives null, a `PYTHON` error and one log record. The result is null iff the error code is non-zero. |
| Entity.GetLong | src/entity.c:61-68 | The value when it converts to a `long`. -1 with a `PYTHON` error when the attribute is missing or does not convert. With no exception pending on entry, the error is set iff conversion failed, and only then is one record logged. |
| Entity.GetBool | src/entity.c:70-77 | The truth value of a present attribute. false with a `PYTHON` error when it is missing. With no exception pending on entry, the error is set iff the attribute is missing. |
| Entity.OptString | src/entity.c:80-86 | A missing attribute gives the default, possibly null, and the error state is unchanged. A present one that converts gives its text up to its first NUL, with the error cleared. A present one that does not convert gives null with a `PYTHON` error, not the default. |
| Entity.OptLong | src/entity.c:88-95 | A missing attribute gives the default and is not an error. A convertible one gives its value with the error cleared. A failed conversion gives the default with the `PYTHON` error left set. Any result other than the default is the attribute's value. |
| Entity.OptBool | src/entity.c:97-104 | A missing attribute gives the default with the error state unchanged. Otherwise the result is the attribute's truth value, with the error cleared. |
| Entity.Finish | src/entity.c:135 | A mutator's status: `QD_ERROR_NONE` with the context unchanged when the Python call succeeded. After a failure it is the bridge's code, stored as the current code: `PYTHON` when an exception is pending, and 0 with the error cleared when none is. |
| Entity.SetValue | src/entity.c:113-136 | `set_py` clears the error state first and returns `QD_ERROR_NONE`. Null deletes the attribute, silently if it was missing. A value is appended when the current value is a list and replaces it otherwise. No other attribute changes, and nothing is logged. |
| Entity.SetString | src/entity.c:138-140 | A string replaces the attribute, or is appended to a list. Null clears the attribute. Other attributes are unchanged, the error state is cleared and nothing is logged. |
| Entity.SetLongP | src/entity.c:142-144 | A `long` replaces the attribute, or is appended to a list. Null clears the attribute. Other attributes are unchanged, the error state is cleared and nothing is logged. |
| Entity.SetBoolP | src/entity.c:146-148 | A boolean replaces the attribute, or is appended to a list. Null clears the attribute. Other attributes are unchanged, the error state is cleared and nothing is logged. |
| Entity.SetLong | src/entity.c:150-152 | The attribute holds the integer, or the list gains it. Other attributes are unchanged, the error state is cleared and nothing is logged. |
| Entity.SetBool | src/entity.c:154-156 | The attribute holds the boolean, or the list gains it. Other attributes are unchanged, the error state is cleared and nothing is logged. |
| Entity.ClearAttribute | src/entity.c:158-160 | The attribute is removed, `QD_ERROR_NONE` is returned and the error state is cleared, whether or not the attribute existed. |
| Entity.SetList | src/entity.c:164-167 | The attribute becomes an empty list, whatever it held before. |
| Entity.SetStringF | src/entity.c:169-184 | The rendered text is stored as a string attribute, or appended to a list. Other attributes are unchanged, the error state is cleared and nothing is logged. |
| Entity.HasAfterSetAndClear | src/entity.c:119-131 | `has` is true after any non-null set and false after a clear. |
| Entity.SetNullIsClear | src/entity_private.h:70-91 | `set_string`, `set_longp` and `set_boolp` with null each give exactly the same result as `qd_entity_clear`. |
| Entity.SetListThenAppend | src/entity_private.h:93-97 | `set_list` then setting "a" then setting "b" leaves the attribute holding the list ["a", "b"], not "b". |
| Entity.GetStringAfterSet | src/entity_private.h:37-41 | Reading back a just-stored string on a non-list attribute gives that string up to its first NUL, with no error; it gives the whole string exactly when the string holds no NUL. |
| Entity.GetLongAfterSet | src/entity_private.h:43-44 | Reading back a just-stored integer on a non-list attribute gives that integer, with no error. |
| Entity.GetBoolAfterSet | src/entity_private.h:46-47 | Reading back a just-stored boolean on a non-list attribute gives that boolean, with no error. |
| Polyfills.Substr | console/stand-alone/plugin/js/qdrService.js:64 | `substr` yields at most `length` characters of `s`, starting at the start index. A negative start counts back from the end of the string. |
| Polyfills.StartsWith | console/stand-alone/plugin/js/qdrService.js:62-66 | `startsWith(s, t, p)` holds iff `t` is empty or occurs at `p` (0 when absent). A negative `p` is read from the end of `s`, not clamped. |
| Polyfills.StartsWithStandard | console/stand-alone/plugin/js/qdrService.js:62-66 | Corrected: holds iff `t` occurs at `p` clamped to `[0, |s|]`. |
| Polyfills.StartsWithAgreesWhenNonNegative | console/stand-alone/plugin/js/qdrService.js:62-66 | For an absent or non-negative position, the polyfill and the standard agree. |
| Polyfills.StartsWithNegativeCounterexample | console/stand-alone/plugin/js/qdrService.js:64 | `"abc".startsWith("c", -1)` is true in the polyfill and false in the standard. |
| Polyfills.EndPosition | console/stand-alone/plugin/js/qdrService.js:71-73 | An absent, non-integral or too-large position becomes `|s|`. Any other position is kept, negative ones included. |
| Polyfills.LastIndexFrom | console/stand-alone/plugin/js/qdrService.js:75 | The result is -1, or an occurrence at or before `k`. No occurrence lies after the result up to `k`. |
| Polyfills.LastIndexOf | console/stand-alone/plugin/js/qdrService.js:75 | `lastIndexOf` finds the last occurrence at or before the start index, clamped to `[0, |s|]`, or returns -1. |
| Polyfills.EndsWith | console/stand-alone/plugin/js/qdrService.js:68-78 | `endsWith(s, t, pos)` holds iff `t` ends exactly at the end position, that is, `t` is a suffix of `s[..end]`. |
| Polyfills.EndsWithStandard | console/stand-alone/plugin/js/qdrService.js:68-78 | Corrected: the position is truncated and clamped to `[0, |s|]`, then the same suffix test is applied. |
| Polyfills.EndsWithAgreesWhenIntegral | console/stand-alone/plugin/js/qdrService.js:71-76 | For an absent position, or a non-negative integral one, the polyfill and the standard agree. |
| Polyfills.EndsWithCounterexamples | console/stand-alone/plugin/js/qdrService.js:71-76 | `"abc".endsWith("", -1)` and `"abc".endsWith("a", 1.5)` are false in the polyfill and true in the standard. |
| Polyfills.ToUint32 | console/stand-alone/plugin/js/qdrService.js:92 | `length >>> 0` never exceeds the length and is below 2^32. It equals the length for every real array. |
| Polyfills.FindIndex | console/stand-alone/plugin/js/qdrService.js:81-123 | A null or undefined receiver throws `TypeError` first, and a predicate that is not a function throws next. Otherwise the result lies in `[-1, len)`. It is the least index whose element satisfies the predicate, and every earlier index fails it. It is -1 iff no element satisfies the predicate. |

## Left out

- Reference counting (`Py_XDECREF`, `qd_entity_free`) and `strdup` ownership are left out: the model's values are immutable, so there is nothing to release.
- Allocation failures are left out: `PyString_FromString`, `PyList_New` and `strdup` returning null, and `PyList_Append` or `PyObject_SetItem` returning -1 for lack of memory.
- Entity.SetValue: assumes that `PyList_Append` and `PyObject_SetItem` succeed. In the source either can fail and return -1, for example when the entity's `__setitem__` raises; `qd_entity_set_py` then returns `PYTHON` through `qd_error_py`. The model's `qd_error_py` path after a mutation is reachable only for the deletion of a missing key, where it clears.
- Entity.SetValue: values are not shared. In the source, appending to a list attribute mutates that list object in place, so another attribute, or an outside reference, holding the same list also changes. The contract "no other attribute changes" holds only when no two attributes hold the same list object.
- The texts of the runtime's exceptions (`Entity.KeyError`, `IntegerRequired`, `LongOverflow`, `UnicodeEncodeError`) are placeholders for the runtime's own wording.
- Entity.GetString, Entity.GetLong, Entity.GetBool: the exceptions the runtime raises from C (`KeyError`, the integer conversion errors, `UnicodeEncodeError`) are modelled with no traceback, so the failure paths log exactly one record. If such an exception carried a traceback that renders, the source would log a second record.
- Entity.ToText: only Python 2's ASCII default encoding is modelled, and `repr` of list elements is approximated: escapes inside the quotes (quotes, control characters, and non-ASCII characters, which Python 2 writes as `\xe9` and the like) and the `L` suffix of integers beyond `sys.maxint` are not modelled, so `str([u'é'])` gives `[u'é']` in the model.
- `Entity.IsTrue`: this is Python truthiness for the five value shapes only. Other Python types and `__bool__`/`__len__` overrides are not modelled.
- The traceback formatting of `log_trace_py` (src/error.c:101-125) runs Python source. Only its outcome is modelled: the optional rendered text carried by the pending exception, logged as a second record.
- Thread-local storage: the model is one thread's context, threaded through calls. There is no concurrency.
- `qd_error_initialize` (setting up the log source) is left out, and so is the log level. Every record is an error-level record of the `ERROR` source.
- The printf rendering in `qd_error` and `qd_entity_set_stringf` is left out, including the two-pass sizing. The rendered text is an input, and a NUL inside it is not modelled: `qd_error` and `set_stringf` take it whole. Strings read back from Python (`Entity.GetString`, `Entity.OptString`) and the texts `qd_error_py` prints with `%s` are cut at their first NUL, as `Text.CString` models.
- Negative error codes are left out, because the enumerators of `qd_error_t` are non-negative.
- Errors.Format: lengths count characters, not bytes. `snprintf` bounds the buffer in bytes, so a message with multi-byte UTF-8 characters is truncated earlier in the source than in the model, possibly in the middle of a character.
- Polyfills.StartsWith: only absent or finite numeric positions are modelled. A non-number, NaN or infinite position is left out.
- Polyfills.StartsWith: strings are sequences of Unicode scalar values, whereas JavaScript indexes UTF-16 code units. Positions and lengths differ from the source for text outside the Basic Multilingual Plane, and a match starting or ending inside a surrogate pair is not modelled.
- Polyfills.EndsWith: strings are sequences of Unicode scalar values, whereas JavaScript indexes UTF-16 code units, with the same consequence as for `startsWith`.
- Polyfills.EndsWith: a non-number or non-finite position is treated like an absent one, exactly as the code does. It is modelled as `None`.
- Polyfills.FindIndex: the receiver is modelled as a sequence, with `thisArg` folded into the predicate. Array-like objects, holes and predicates with side effects are left out.
- Polyfills.FindIndex: assumes strict-mode `this`, so that a null or undefined receiver throws `TypeError`. `qdrService.js` is not in strict mode, so a call such as `Array.prototype.findIndex.call(null, f)` binds `this` to the global object and does not take the throwing branch.
- The rest of `qdrService.js` (the Angular service, navigation, `console.dump`) and all of `qdrSettings.js` are UI and I/O, and are left out.

## Findings

| source | as written | input that shows it | evidently intended | confidence | as-written member | corrected member |
|---|---|---|---|---|---|---|
| console/stand-alone/plugin/js/qdrService.js:62-66 | `substr(position \|\| 0, ...)` reads a negative position from the end of the string | `"abc".startsWith("c", -1)` returns true | `startsWith` of section 21.1.3.18 of ECMA-262 (6th edition), which clamps the position to 0 and returns false | high; not executed | Polyfills.StartsWithNegativeCounterexample | Polyfills.StartsWithStandard |
| console/stand-alone/plugin/js/qdrService.js:71-76 | a negative integral position is kept, and a fractional one is replaced by the length | `"abc".endsWith("", -1)` and `"abc".endsWith("a", 1.5)` both return false | `endsWith` of section 21.1.3.6 of ECMA-262 (6th edition), which truncates and clamps the position, making both true | medium; not executed | Polyfills.EndsWithCounterexamples | Polyfills.EndsWithStandard |

=== FILE: entity.dfy ===
/** The typed attribute facade of src/entity.c over a managed entity.

    The entity, a Python mapping object in the source, is an immutable map
    from attribute names to values; every mutator returns the new map. The
    Python calls the facade makes (item lookup, `str`, `PyInt_AsLong`,
    `PyObject_IsTrue`, list append, item assignment and deletion) are the
    small functions in the first section, and any exception they raise is
    placed in the context's pending-exception slot, where `Errors.Bridge`
    finds it. */
module Entity {
  import opened Wrappers
  import opened Text
  import opened Errors

  /** An attribute value: a byte string (`str`), a `unicode` string, an
      integer, a boolean or a list. */
  datatype Value = Str(s: string) | Unicode(u: string) | Int(i: int) | Bool(b: bool) | List(items: seq<Value>)

  type Entity = map<string, Value>

  /** The range of a C `long` on an LP64 platform. */
  const LONG_MIN: int := -0x8000_0000_0000_0000
  const LONG_MAX: int := 0x7fff_ffff_ffff_ffff
  type Long = i: int | LONG_MIN <= i <= LONG_MAX

  /** A mutator's returned code, the new entity and the new context. */
  datatype Update = Update(code: ErrorCode, entity: Entity, ctx: Context)

  // The Python runtime as the facade uses it.

  /** The exceptions the runtime raises on the facade's behalf. They come
      from C code, so they carry no traceback; their texts stand in for the
      runtime's own wording. */
  function KeyError(name: string): PyException {
    PyException(Renders(name), NoTraceback)
  }

  const IntegerRequired: PyException := PyException(Renders("an integer is required"), NoTraceback)
  const LongOverflow: PyException := PyException(Renders("Python int too large to convert to C long"), NoTraceback)
  const UnicodeEncodeError: PyException := PyException(Renders("'ascii' codec can't encode character"), NoTraceback)

  /** `qd_entity_get_py` (`PyObject_GetItem`): the value, or nothing with a
      `KeyError` pending; the attribute's presence decides which. */
  function GetItem(e: Entity, name: string, ctx: Context): (r: Step<Option<Value>>)
    ensures r.value.Some? <==> name in e
    ensures name in e ==> r.value.value == e[name] && r.ctx == ctx
    ensures name !in e ==> r.ctx.pending == Some(KeyError(name)) && r.ctx.err == ctx.err && r.ctx.log == ctx.log
  {
    if name in e then Step(Some(e[name]), ctx)
    else Step(None, ctx.(pending := Some(KeyError(name))))
  }

  /** `PyInt_AsLong`: integers in the range of a C `long` convert to
      themselves and booleans to 1 and 0; every other value raises. */
  function AsLong(v: Value): (r: Result<Long, PyException>)
    ensures r.Success? <==> v.Bool? || (v.Int? && LONG_MIN <= v.i <= LONG_MAX)
    ensures r.Success? && v.Int? ==> r.value == v.i
    ensures r.Success? && v.Bool? ==> (r.value == 1 <==> v.b) && (r.value == 0 <==> !v.b)
  {
    match v
    case Int(i) => if LONG_MIN <= i <= LONG_MAX then Success(i) else Failure(LongOverflow)
    case Bool(b) => Success(if b then 1 else 0)
    case _ => Failure(IntegerRequired)
  }

  /** `PyObject_IsTrue`: empty strings and lists, zero and `False` are false.
      It agrees with the numeric conversion and with `str()`: a value that
      converts to a `long` is true iff it is non-zero, and a string that
      converts is true iff its text is non-empty. */
  function IsTrue(v: Value): (r: bool)
    ensures AsLong(v).Success? ==> (r <==> AsLong(v).value != 0)
    ensures (v.Str? || v.Unicode?) && ToText(v).Success? ==> (r <==> ToText(v).value != "")
  {
    match v
    case Str(s) => |s| > 0
    case Unicode(u) => |u| > 0
    case Int(i) => i != 0
    case Bool(b) => b
    case List(xs) => |xs| > 0
  }

  predicate IsAscii(u: string) {
    forall k :: 0 <= k < |u| ==> u[k] < 128 as char
  }

  /** `repr(v)`, which never fails. An approximation: escapes inside the
      quotes and the `L` suffix of Python 2 longs are not modelled. */
  function Repr(v: Value): string {
    match v
    case Str(s) => "'" + s + "'"
    case Unicode(u) => "u'" + u + "'"
    case Int(i) => SignedDecimal(i)
    case Bool(b) => if b then "True" else "False"
    case List(xs) => "[" + Join(seq(|xs|, k requires 0 <= k < |xs| => Repr(xs[k])), ", ") + "]"
  }

  /** `str(v)`, what `PyObject_Str` renders with Python 2's ASCII default
      encoding: a byte string is itself, a `unicode` string converts only
      when it is pure ASCII, and other values print as their `repr`. */
  function ToText(v: Value): (r: Result<string, PyException>)
    ensures r.Failure? <==> v.Unicode? && !IsAscii(v.u)
    ensures v.Str? ==> r == Success(v.s)
    ensures v.Unicode? && IsAscii(v.u) ==> r == Success(v.u)
  {
    match v
    case Str(s) => Success(s)
    case Unicode(u) => if IsAscii(u) then Success(u) else Failure(UnicodeEncodeError)
    case _ => Success(Repr(v))
  }

  predicate IsList(e: Entity, name: string) {
    name in e && e[name].List?
  }

  // Getters.

  /** `qd_entity_has`: whether the attribute is present. The probe's
      exception is discarded, and the error state is left alone. */
  function Has(e: Entity, name: string, ctx: Context): (r: Step<bool>)
    ensures r.value <==> name in e
    ensures r.ctx.err == ctx.err && r.ctx.log == ctx.log && r.ctx.pending.None?
  {
    var got := GetItem(e, name, ctx);
    Step(got.value.Some?, got.ctx.(pending := None))
  }

  /** `qd_entity_string`: a new string on success; on failure null, with the
      error set. A missing attribute and a present one that cannot be
      converted are both errors, and a previous error never survives the
      call. The copy is a C string, so it ends at the first NUL. */
  function GetString(e: Entity, name: string, ctx: Context): (r: Step<Option<string>>)
    ensures name in e && ToText(e[name]).Success? ==>
      && r.value == Some(CString(ToText(e[name]).value))
      && r.ctx.err == Cleared && r.ctx.log == ctx.log && r.ctx.pending == ctx.pending
    ensures !(name in e && ToText(e[name]).Success?) ==>
      && r.value.None?
      && r.ctx.err.code == PYTHON && r.ctx.pending.None?
      && |r.ctx.log| == |ctx.log| + 1
    ensures r.value.None? <==> r.ctx.err.code != NONE
  {
    var cleared := Clear(ctx);
    var got := GetItem(e, name, cleared);
    var converted: Step<Option<string>> :=
      match got.value
      case None => Step(None, got.ctx)
      case Some(v) =>
        match ToText(v)
        case Success(text) => Step(Some(CString(text)), got.ctx)
        case Failure(exc) => Step(None, got.ctx.(pending := Some(exc)));
    if converted.value.None? then Step(None, Bridge(converted.ctx).ctx) else converted
  }

  /** `qd_entity_long`: the integer, or -1 with a `PYTHON` error when the
      attribute is missing or not convertible. The bridge runs on every
      path, so a pending exception is always consumed; with none pending on
      entry, the error is set exactly when the value is not returned. */
  function GetLong(e: Entity, name: string, ctx: Context): (r: Step<Long>)
    ensures name !in e ==> r.value == -1 && r.ctx.err.code == PYTHON && r.ctx.pending.None?
    ensures name in e && AsLong(e[name]).Failure? ==> r.value == -1 && r.ctx.err.code == PYTHON && r.ctx.pending.None?
    ensures name in e && AsLong(e[name]).Success? ==> r.value == AsLong(e[name]).value
    ensures ctx.pending.None? ==>
      && r.ctx.pending.None?
      && (r.ctx.err.code == NONE <==> name in e && AsLong(e[name]).Success?)
      && (r.ctx.err.code != NONE ==> r.value == -1 && |r.ctx.log| == |ctx.log| + 1)
      && (r.ctx.err.code == NONE ==> r.ctx.err == Cleared && r.ctx.log == ctx.log)
  {
    var cleared := Clear(ctx);
    var got := GetItem(e, name, cleared);
    var converted: Step<Long> :=
      match got.value
      case None => Step(-1, got.ctx)
      case Some(v) =>
        match AsLong(v)
        case Success(i) => Step(i, got.ctx)
        case Failure(exc) => Step(-1, got.ctx.(pending := Some(exc)));
    Step(converted.value, Bridge(converted.ctx).ctx)
  }

  /** `qd_entity_bool`: the truth value, or false with a `PYTHON` error when
      the attribute is missing. */
  function GetBool(e: Entity, name: string, ctx: Context): (r: Step<bool>)
    ensures name !in e ==> !r.value && r.ctx.err.code == PYTHON && r.ctx.pending.None?
    ensures name in e ==> r.value == IsTrue(e[name])
    ensures ctx.pending.None? ==>
      && r.ctx.pending.None?
      && (r.ctx.err.code == NONE <==> name in e)
      && (r.ctx.err.code != NONE ==> |r.ctx.log| == |ctx.log| + 1)
      && (r.ctx.err.code == NONE ==> r.ctx.err == Cleared && r.ctx.log == ctx.log)
  {
    var cleared := Clear(ctx);
    var got := GetItem(e, name, cleared);
    var result := if got.value.Some? then IsTrue(got.value.value) else false;
    Step(result, Bridge(got.ctx).ctx)
  }

  /** `qd_entity_opt_string`: a copy of the default (which may be null) when
      the attribute is missing, without touching the error state; otherwise
      the string getter's result, null with the error set when the value
      does not convert. */
  function OptString(e: Entity, name: string, default: Option<string>, ctx: Context): (r: Step<Option<string>>)
    ensures name !in e ==> r.value == default && r.ctx.err == ctx.err && r.ctx.log == ctx.log
    ensures name in e && ToText(e[name]).Success? ==>
      r.value == Some(CString(ToText(e[name]).value)) && r.ctx.err == Cleared && r.ctx.log == ctx.log
    ensures name in e && ToText(e[name]).Failure? ==> r.value.None? && r.ctx.err.code == PYTHON
    ensures r.ctx.pending.None?
  {
    var probe := Has(e, name, ctx);
    if probe.value then GetString(e, name, probe.ctx) else Step(default, probe.ctx)
  }

  /** `qd_entity_opt_long`: the default when the attribute is missing (not
      an error) or when the getter reported an error (which stays set). */
  function OptLong(e: Entity, name: string, default: Long, ctx: Context): (r: Step<Long>)
    ensures name !in e ==> r.value == default && r.ctx.err == ctx.err && r.ctx.log == ctx.log
    ensures name in e && AsLong(e[name]).Success? ==>
      r.value == AsLong(e[name]).value && r.ctx.err == Cleared && r.ctx.log == ctx.log
    ensures name in e && AsLong(e[name]).Failure? ==> r.value == default && r.ctx.err.code == PYTHON
    ensures r.value != default ==> name in e && AsLong(e[name]) == Success(r.value)
    ensures r.ctx.pending.None?
  {
    var probe := Has(e, name, ctx);
    if probe.value then
      var got := GetLong(e, name, probe.ctx);
      if Code(got.ctx) == NONE then got else Step(default, got.ctx)
    else
      Step(default, probe.ctx)
  }

  /** `qd_entity_opt_bool`: the default when the attribute is missing,
      otherwise its truth value. */
  function OptBool(e: Entity, name: string, default: bool, ctx: Context): (r: Step<bool>)
    ensures name !in e ==> r.value == default && r.ctx.err == ctx.err && r.ctx.log == ctx.log
    ensures name in e ==> r.value == IsTrue(e[name]) && r.ctx.err == Cleared && r.ctx.log == ctx.log
    ensures r.ctx.pending.None?
  {
    var probe := Has(e, name, ctx);
    if probe.value then
      var got := GetBool(e, name, probe.ctx);
      if Code(got.ctx) == NONE then got else Step(default, got.ctx)
    else
      Step(default, probe.ctx)
  }

  // Mutators.

  /** The return path shared by the mutators: a failed Python call is
      reported through the bridge, success returns `NONE`. */
  function Finish(e: Entity, result: int, ctx: Context): (r: Update)
    ensures r.entity == e
    ensures result >= 0 ==> r.code == NONE && r.ctx == ctx
    ensures result < 0 ==> r.code == r.ctx.err.code
    ensures result < 0 && ctx.pending.None? ==> r.code == NONE && r.ctx.err == Cleared && r.ctx.log == ctx.log
    ensures result < 0 && ctx.pending.Some? ==> r.code == PYTHON && r.ctx.err.code == PYTHON
  {
    if result < 0 then
      var bridged := Bridge(ctx);
      Update(bridged.value, e, bridged.ctx)
    else
      Update(NONE, e, ctx)
  }

  /** `qd_entity_set_py`: null deletes the attribute (a missing one is not
      an error); a value is appended when the attribute currently holds a
      list and replaces it otherwise. The error state is cleared first,
      no other attribute changes, and nothing is logged. */
  function SetValue(e: Entity, name: string, v: Option<Value>, ctx: Context): (r: Update)
    ensures r.code == NONE && r.ctx.err == Cleared && r.ctx.pending.None? && r.ctx.log == ctx.log
    ensures r.entity - {name} == e - {name}
    ensures v.None? ==> r.entity == e - {name}
    ensures v.Some? && IsList(e, name) ==> r.entity == e[name := List(e[name].items + [v.value])]
    ensures v.Some? && !IsList(e, name) ==> r.entity == e[name := v.value]
  {
    var cleared := Clear(ctx);
    match v
    case None =>
      var result := if name in e then 0 else -1;
      Finish(e - {name}, result, cleared.(pending := None))
    case Some(x) =>
      var current := GetItem(e, name, cleared);
      var probed := current.ctx.(pending := None);
      if current.value.Some? && current.value.value.List? then
        Finish(e[name := List(current.value.value.items + [x])], 0, probed)
      else
        Finish(e[name := x], 0, probed)
  }

  /** `qd_entity_set_string`: null clears the attribute. */
  function SetString(e: Entity, name: string, s: Option<string>, ctx: Context): (r: Update)
    ensures r.code == NONE && r.ctx.err == Cleared && r.entity - {name} == e - {name}
    ensures r.ctx.log == ctx.log
    ensures s.None? ==> name !in r.entity
    ensures s.Some? && !IsList(e, name) ==> r.entity == e[name := Str(s.value)]
    ensures s.Some? && IsList(e, name) ==> r.entity == e[name := List(e[name].items + [Str(s.value)])]
  {
    SetValue(e, name, if s.Some? then Some(Str(s.value)) else None, ctx)
  }

  /** `qd_entity_set_longp`: null clears the attribute. */
  function SetLongP(e: Entity, name: string, p: Option<Long>, ctx: Context): (r: Update)
    ensures r.code == NONE && r.ctx.err == Cleared && r.entity - {name} == e - {name}
    ensures r.ctx.log == ctx.log
    ensures p.None? ==> name !in r.entity
    ensures p.Some? && !IsList(e, name) ==> r.entity == e[name := Int(p.value)]
    ensures p.Some? && IsList(e, name) ==> r.entity == e[name := List(e[name].items + [Int(p.value)])]
  {
    SetValue(e, name, if p.Some? then Some(Int(p.value)) else None, ctx)
  }

  /** `qd_entity_set_boolp`: null clears the attribute. */
  function SetBoolP(e: Entity, name: string, p: Option<bool>, ctx: Context): (r: Update)
    ensures r.code == NONE && r.ctx.err == Cleared && r.entity - {name} == e - {name}
    ensures r.ctx.log == ctx.log
    ensures p.None? ==> name !in r.entity
    ensures p.Some? && !IsList(e, name) ==> r.entity == e[name := Bool(p.value)]
    ensures p.Some? && IsList(e, name) ==> r.entity == e[name := List(e[name].items + [Bool(p.value)])]
  {
    SetValue(e, name, if p.Some? then Some(Bool(p.value)) else None, ctx)
  }

  /** `qd_entity_set_long`. */
  function SetLong(e: Entity, name: string, i: Long, ctx: Context): (r: Update)
    ensures r.code == NONE && r.entity - {name} == e - {name}
    ensures r.ctx.err == Cleared && r.ctx.log == ctx.log
    ensures !IsList(e, name) ==> r.entity == e[name := Int(i)]
    ensures IsList(e, name) ==> r.entity == e[name := List(e[name].items + [Int(i)])]
  {
    SetLongP(e, name, Some(i), ctx)
  }

  /** `qd_entity_set_bool`. */
  function SetBool(e: Entity, name: string, b: bool, ctx: Context): (r: Update)
    ensures r.code == NONE && r.entity - {name} == e - {name}
    ensures r.ctx.err == Cleared && r.ctx.log == ctx.log
    ensures !IsList(e, name) ==> r.entity == e[name := Bool(b)]
    ensures IsList(e, name) ==> r.entity == e[name := List(e[name].items + [Bool(b)])]
  {
    SetBoolP(e, name, Some(b), ctx)
  }

  /** `qd_entity_clear`: the attribute is gone and no error is reported,
      whether or not it was there. */
  function ClearAttribute(e: Entity, name: string, ctx: Context): (r: Update)
    ensures r.code == NONE && r.entity == e - {name}
    ensures r.ctx.err == Cleared && r.ctx.log == ctx.log && r.ctx.pending.None?
  {
    SetValue(e, name, None, ctx)
  }

  /** `qd_entity_set_list`: the attribute becomes an empty list, whatever it
      held before. */
  function SetList(e: Entity, name: string, ctx: Context): (r: Update)
    ensures r.code == NONE && r.entity == e[name := List([])]
    ensures r.ctx.err == Cleared && r.ctx.log == ctx.log
  {
    var cleared := ClearAttribute(e, name, ctx);
    if cleared.code != NONE then
      Update(Code(cleared.ctx), cleared.entity, cleared.ctx)
    else
      SetValue(cleared.entity, name, Some(List([])), cleared.ctx)
  }

  /** `qd_entity_set_stringf`, with `rendered` the text the format and its
      arguments produce. */
  function SetStringF(e: Entity, name: string, rendered: string, ctx: Context): (r: Update)
    ensures r.code == NONE && r.entity - {name} == e - {name}
    ensures r.ctx.err == Cleared && r.ctx.log == ctx.log
    ensures !IsList(e, name) ==> r.entity == e[name := Str(rendered)]
    ensures IsList(e, name) ==> r.entity == e[name := List(e[name].items + [Str(rendered)])]
  {
    SetString(e, name, Some(rendered), ctx)
  }

  // Properties relating several calls.

  /** An attribute is present after it is set and absent after it is
      cleared. */
  lemma HasAfterSetAndClear(e: Entity, name: string, v: Value, ctx: Context)
    ensures Has(SetValue(e, name, Some(v), ctx).entity, name, ctx).value
    ensures !Has(ClearAttribute(e, name, ctx).entity, name, ctx).value
  {
  }

  /** Setting null is clearing. */
  lemma SetNullIsClear(e: Entity, name: string, ctx: Context)
    ensures SetString(e, name, None, ctx) == ClearAttribute(e, name, ctx)
    ensures SetLongP(e, name, None, ctx) == ClearAttribute(e, name, ctx)
    ensures SetBoolP(e, name, None, ctx) == ClearAttribute(e, name, ctx)
  {
  }

  /** After `set_list`, sets append in order instead of replacing. */
  lemma SetListThenAppend(e: Entity, name: string, a: string, b: string, ctx: Context)
    ensures var listed := SetList(e, name, ctx);
            var first := SetString(listed.entity, name, Some(a), listed.ctx);
            var second := SetString(first.entity, name, Some(b), first.ctx);
            second.entity == e[name := List([Str(a), Str(b)])]
  {
    var listed := SetList(e, name, ctx);
    assert IsList(listed.entity, name) && listed.entity[name].items == [];
    var first := SetString(listed.entity, name, Some(a), listed.ctx);
    assert [] + [Str(a)] == [Str(a)] && [Str(a)] + [Str(b)] == [Str(a), Str(b)];
    assert first.entity == e[name := List([Str(a)])];
  }

  /** Reading back a string that was just stored gives the same string,
      exactly when it holds no NUL (a C string cannot carry one). */
  lemma GetStringAfterSet(e: Entity, name: string, s: string, ctx: Context)
    requires !IsList(e, name)
    ensures var stored := SetString(e, name, Some(s), ctx);
            var got := GetString(stored.entity, name, stored.ctx);
            && got.value == Some(CString(s)) && Code(got.ctx) == NONE
            && (got.value == Some(s) <==> NoNul(s))
  {
    CStringKeepsPlain(s);
  }

  /** Reading back an integer that was just stored gives the same integer
      and no error. */
  lemma GetLongAfterSet(e: Entity, name: string, i: Long, ctx: Context)
    requires !IsList(e, name)
    ensures var stored := SetLong(e, name, i, ctx);
            var got := GetLong(stored.entity, name, stored.ctx);
            got.value == i && Code(got.ctx) == NONE
  {
  }

  /** Reading back a boolean that was just stored gives the same boolean
      and no error. */
  lemma GetBoolAfterSet(e: Entity, name: string, b: bool, ctx: Context)
    requires !IsList(e, name)
    ensures var stored := SetBool(e, name, b, ctx);
            var got := GetBool(stored.entity, name, stored.ctx);
            got.value == b && Code(got.ctx) == NONE
  {
  }
}

=== FILE: errors.dfy ===
/** The per-thread error state of src/error.c and the bridge that turns a
    pending Python exception into a structured error.

    The thread-local `(code, message)` pair is an explicit `ErrorState` value.
    It travels in a `Context` together with the embedded runtime's pending
    exception indicator and the records written to the "ERROR" log source, and
    every operation takes one context and returns the next. */
module Errors {
  import opened Wrappers
  import opened Text

  /** `qd_error_t` is a C enum with non-negative enumerators, so a code is
      a non-negative `int`. */
  const INT_MAX: nat := 0x7fff_ffff
  type ErrorCode = c: nat | c <= INT_MAX

  const NONE: ErrorCode := 0
  const NOT_FOUND: ErrorCode := 1
  const ALREADY_EXISTS: ErrorCode := 2
  const ALLOCATION: ErrorCode := 3
  const INVALID_MESSAGE: ErrorCode := 4
  const PYTHON: ErrorCode := 5
  const CONFIGURATION: ErrorCode := 6
  /** `QD_ERROR_COUNT`: one past the last known kind. */
  const COUNT: nat := 7

  /** Display name of each kind, indexed by its code. */
  const ErrorNames: seq<string> :=
    ["No Error", "Not found", "Already exists", "Allocation",
     "Invalid message", "Python", "Configuration"]

  /** `ERROR_MAX`, the size of the message buffer, is the log module's
      `QD_LOG_TEXT_MAX`. */
  const LOG_TEXT_MAX: nat := 2048
  const ERROR_MAX: nat := LOG_TEXT_MAX

  const NO_ERROR_TEXT: string := "No Error"

  datatype ErrorState = ErrorState(code: ErrorCode, message: string)

  /** A Python exception waiting in the interpreter's error indicator,
      described by what happens when `qd_error_py` renders it. */
  datatype PyException = PyException(value: ExceptionValue, traceback: Traceback)

  /** The exception's value: null, rendered by `str` to a text, or one whose
      rendering itself raises another exception. */
  datatype ExceptionValue = NullValue | Renders(text: string) | RenderFails(raised: PyException)

  /** The exception's traceback: none, rendered by the traceback module to
      a text, or one whose rendering raises another exception. */
  datatype Traceback = NoTraceback | TraceRenders(lines: string) | TraceFails(raised: PyException)

  /** One thread's view: its error state, the interpreter's pending
      exception, and the messages logged at error level so far. */
  datatype Context = Context(err: ErrorState, pending: Option<PyException>, log: seq<string>)

  /** A result together with the context after the call. */
  datatype Step<T> = Step(value: T, ctx: Context)

  const Cleared: ErrorState := ErrorState(NONE, NO_ERROR_TEXT)

  /** A thread's state before its first call: the zero-initialised
      thread-local pair (code 0, empty message), nothing pending, nothing
      logged. */
  const Initial: Context := Context(ErrorState(NONE, ""), None, [])

  /** The shapes of error state the operations below produce: "No Error"
      with code 0, otherwise a bounded message carrying the code's prefix. */
  predicate WellFormed(err: ErrorState) {
    if err.code == NONE then err.message == NO_ERROR_TEXT
    else Prefix(err.code) <= err.message && |err.message| < ERROR_MAX
  }

  /** The name table has one entry per kind; the names are distinct, short,
      free of ':' and start with a letter, so a message's prefix names its
      kind unambiguously. */
  lemma NameTable()
    ensures |ErrorNames| == COUNT
    ensures forall i, j :: 0 <= i < j < COUNT ==> ErrorNames[i] != ErrorNames[j]
    ensures forall i :: 0 <= i < COUNT ==> 0 < |ErrorNames[i]| < 20
    ensures forall i :: 0 <= i < COUNT ==> !IsDigit(ErrorNames[i][0])
    ensures forall i, k :: 0 <= i < COUNT && 0 <= k < |ErrorNames[i]| ==> ErrorNames[i][k] != ':'
  {
  }

  /** What `qd_error` writes before the caller's text: the kind's name, or
      its number when it lies beyond the table. */
  function Prefix(code: ErrorCode): string {
    if code < COUNT then ErrorNames[code] + ": " else Decimal(code) + ": "
  }

  lemma PrefixFits(code: ErrorCode)
    ensures |Prefix(code)| <= 21
  {
    NameTable();
    if code >= COUNT {
      DecimalLength(code, 10);
    }
  }

  /** The buffer contents after `qd_error`'s two bounded writes: the prefix,
      then as much of the formatted text as still fits before the
      terminator. */
  function Format(code: ErrorCode, text: string): (m: string)
    ensures |m| < ERROR_MAX
    ensures Prefix(code) <= m && m <= Prefix(code) + text
    ensures |Prefix(code) + text| < ERROR_MAX ==> m == Prefix(code) + text
    ensures |Prefix(code) + text| >= ERROR_MAX ==> |m| == ERROR_MAX - 1
  {
    PrefixFits(code);
    var head := Truncate(Prefix(code), ERROR_MAX - 1);
    var i := |Prefix(code)|;
    head + Truncate(text, ERROR_MAX - i - 1)
  }

  /** `qd_error_clear`: no error, fixed message; nothing is logged. */
  function Clear(ctx: Context): (r: Context)
    ensures r.err.code == NONE && r.err.message == NO_ERROR_TEXT
    ensures r.pending == ctx.pending && r.log == ctx.log
    ensures WellFormed(r.err)
  {
    ctx.(err := Cleared)
  }

  /** `qd_error_code`. In a well-formed state the code is 0 exactly when
      the message is "No Error". */
  function Code(ctx: Context): (c: ErrorCode)
    ensures WellFormed(ctx.err) ==> (c == NONE <==> ctx.err.message == NO_ERROR_TEXT)
  {
    ClearedIffNoErrorText(ctx.err);
    ctx.err.code
  }

  /** `qd_error_message`. In a well-formed state the message fits the
      buffer and names the current code. */
  function Message(ctx: Context): (m: string)
    ensures WellFormed(ctx.err) ==> |m| < ERROR_MAX
    ensures WellFormed(ctx.err) && ctx.err.code != NONE ==> CodeOfMessage(m) == Some(ctx.err.code)
  {
    if WellFormed(ctx.err) && ctx.err.code != NONE then
      PrefixNamesCode(ctx.err.code, ctx.err.message);
      ctx.err.message
    else
      ctx.err.message
  }

  /** `qd_error(code, fmt, ...)` with `text` the rendered format. A non-zero
      code is stored with a kind-prefixed, bounded message and logged once;
      code zero clears. Either way the code is returned. */
  function Raise(ctx: Context, code: ErrorCode, text: string): (r: Step<ErrorCode>)
    ensures r.value == code && r.ctx.err.code == code
    ensures r.ctx.pending == ctx.pending
    ensures code == NONE ==> r.ctx.err == Cleared && r.ctx.log == ctx.log
    ensures code != NONE ==>
      && Prefix(code) <= r.ctx.err.message
      && r.ctx.err.message <= Prefix(code) + text
      && |r.ctx.err.message| < ERROR_MAX
      && r.ctx.log == ctx.log + [r.ctx.err.message]
    ensures WellFormed(r.ctx.err)
  {
    if code != NONE then
      var m := Format(code, text);
      Step(code, ctx.(err := ErrorState(code, m), log := ctx.log + [m]))
    else
      Step(NONE, Clear(ctx))
  }

  /** The text `qd_error_py` reports for a fetched exception: its value's
      rendering as a C string (up to any NUL), or "Unknown" when the value
      is null or cannot be rendered. */
  function ExceptionText(exc: PyException): (t: string)
    ensures exc.value.Renders? ==> t == CString(exc.value.text)
    ensures !exc.value.Renders? ==> t == "Unknown"
  {
    match exc.value
    case Renders(text) => CString(text)
    case _ => "Unknown"
  }

  /** The traceback record `log_trace_py` writes, as a C string: only when
      the value is non-null and the traceback renders. */
  function TraceRecord(exc: PyException): seq<string> {
    if !exc.value.NullValue? && exc.traceback.TraceRenders? then [CString(exc.traceback.lines)] else []
  }

  /** The exception left pending once `qd_error_py` returns: the one raised
      while rendering the traceback, else the one raised while rendering
      the value, else none. */
  function Leftover(exc: PyException): Option<PyException> {
    if !exc.value.NullValue? && exc.traceback.TraceFails? then Some(exc.traceback.raised)
    else if exc.value.RenderFails? then Some(exc.value.raised)
    else None
  }

  /** `log_trace_py`: nothing without a value or a traceback; otherwise the
      rendered traceback is logged, or its rendering's exception is left
      pending. */
  function LogTrace(ctx: Context, exc: PyException): (r: Context)
    ensures r.err == ctx.err && r.log == ctx.log + TraceRecord(exc)
    ensures !exc.value.NullValue? && exc.traceback.TraceFails? ==> r.pending == Some(exc.traceback.raised)
    ensures exc.value.NullValue? || !exc.traceback.TraceFails? ==> r.pending == ctx.pending
  {
    if exc.value.NullValue? then ctx
    else
      match exc.traceback
      case NoTraceback => ctx
      case TraceRenders(lines) => ctx.(log := ctx.log + [CString(lines)])
      case TraceFails(raised) => ctx.(pending := Some(raised))
  }

  /** `qd_error_py`: with nothing pending, clears and returns `NONE`.
      Otherwise fetches (and so removes) the pending exception, raises a
      `PYTHON` error carrying its text, and logs its traceback as a second
      record when one could be rendered. An exception raised by either
      rendering stays pending. Returns the resulting code. */
  function Bridge(ctx: Context): (r: Step<ErrorCode>)
    ensures r.value == r.ctx.err.code && WellFormed(r.ctx.err)
    ensures ctx.pending.None? ==>
      r.value == NONE && r.ctx.err == Cleared && r.ctx.log == ctx.log && r.ctx.pending.None?
    ensures ctx.pending.Some? ==>
      var exc := ctx.pending.value;
      var msg := Format(PYTHON, ExceptionText(exc));
      && r.value == PYTHON
      && r.ctx.err.message == msg
      && r.ctx.log == ctx.log + [msg] + TraceRecord(exc)
      && r.ctx.pending == Leftover(exc)
  {
    match ctx.pending
    case None =>
      var cleared := Clear(ctx);
      Step(Code(cleared), cleared)
    case Some(exc) =>
      var fetched := ctx.(pending := None);
      var rendered := if exc.value.RenderFails? then fetched.(pending := Some(exc.value.raised)) else fetched;
      var raised := Raise(rendered, PYTHON, ExceptionText(exc)).ctx;
      var traced := LogTrace(raised, exc);
      Step(Code(traced), traced)
  }

  /** An exception that renders cleanly is observed once: bridging again
      finds nothing pending, clears, and logs nothing more. */
  lemma BridgeObservedOnce(ctx: Context)
    requires ctx.pending.Some? && Leftover(ctx.pending.value).None?
    ensures var first := Bridge(ctx);
            var second := Bridge(first.ctx);
            && first.value == PYTHON
            && second.value == NONE
            && second.ctx.err == Cleared
            && second.ctx.log == first.ctx.log
  {
  }

  /** The zero-initialised state reads as code 0 with an empty message, not
      "No Error", so it is not well formed; the first `qd_error_clear`,
      `qd_error` or `qd_error_py` on the thread makes it so. */
  lemma InitialState(code: ErrorCode, text: string)
    ensures Code(Initial) == NONE && Message(Initial) == "" && !WellFormed(Initial.err)
    ensures WellFormed(Clear(Initial).err)
    ensures WellFormed(Raise(Initial, code, text).ctx.err)
    ensures WellFormed(Bridge(Initial).ctx.err) && Message(Bridge(Initial).ctx) == NO_ERROR_TEXT
  {
  }

  /** An exception whose rendering raised leaves that second exception
      behind: the next bridge reports it as a fresh `PYTHON` error and logs
      again. */
  lemma BridgeRenderFailureObservedAgain(ctx: Context)
    requires ctx.pending.Some? && Leftover(ctx.pending.value).Some?
    ensures var first := Bridge(ctx);
            var second := Bridge(first.ctx);
            var leftover := Leftover(ctx.pending.value).value;
            && second.value == PYTHON
            && Message(second.ctx) == Format(PYTHON, ExceptionText(leftover))
            && first.ctx.log + [Message(second.ctx)] <= second.ctx.log
  {
  }

  /** With nothing pending, the bridge wipes out an earlier, unrelated
      error rather than leaving it to be read. */
  lemma BridgeClearsEarlierError(ctx: Context, code: ErrorCode, text: string)
    requires ctx.pending.None?
    ensures var raised := Raise(ctx, code, text).ctx;
            var bridged := Bridge(raised);
            && bridged.value == NONE
            && Code(bridged.ctx) == NONE
            && Message(bridged.ctx) == NO_ERROR_TEXT
            && bridged.ctx.log == raised.log
  {
  }

  /** The message of an exception without a renderable value. */
  lemma BridgeUnknown(ctx: Context)
    requires ctx.pending.Some? && !ctx.pending.value.value.Renders?
    ensures Message(Bridge(ctx).ctx) == "Python: Unknown"
  {
    var bridged := Bridge(ctx);
    assert ExceptionText(ctx.pending.value) == "Unknown";
    assert Prefix(PYTHON) == "Python: ";
    assert bridged.ctx.err.message == Format(PYTHON, "Unknown") == "Python: Unknown";
  }

  /** After a raise, the accessors read back the code and a message that
      carries the kind's prefix and, when it fits, the whole text. */
  lemma AccessorsAfterRaise(ctx: Context, code: ErrorCode, text: string)
    requires code != NONE
    ensures var after := Raise(ctx, code, text).ctx;
            && Code(after) == code
            && Prefix(code) <= Message(after)
            && (|Prefix(code) + text| < ERROR_MAX ==> Message(after) == Prefix(code) + text)
  {
  }

  // Reading the code back out of a message.

  /** Index of the first ':' in `m`, or `|m|` when there is none. */
  function FirstColon(m: string): (k: nat)
    ensures k <= |m|
    ensures forall i :: 0 <= i < k ==> m[i] != ':'
    ensures k < |m| ==> m[k] == ':'
  {
    if |m| == 0 || m[0] == ':' then 0 else 1 + FirstColon(m[1..])
  }

  /** The code whose display name is `name`, searching the table from `i`. */
  function NameIndex(name: string, i: nat): (r: Option<ErrorCode>)
    requires i <= COUNT
    ensures r.Some? ==> i <= r.value < COUNT && ErrorNames[r.value] == name
    ensures r.None? ==> forall j :: i <= j < COUNT ==> ErrorNames[j] != name
    decreases COUNT - i
  {
    if i == COUNT then None
    else if ErrorNames[i] == name then Some(i)
    else NameIndex(name, i + 1)
  }

  /** The code a message was raised with, recovered from its prefix: the
      text before the first ": " is either a kind name or a numeral. */
  function CodeOfMessage(m: string): Option<nat> {
    var k := FirstColon(m);
    if k + 2 <= |m| && m[k + 1] == ' ' then
      var head := m[..k];
      match NameIndex(head, 1)
      case Some(c) => Some(c)
      case None => ParseDecimal(head)
    else
      None
  }

  /** Code 0 goes with "No Error" and every other code with a message that
      names it, so in a well-formed state either determines the other. */
  lemma ClearedIffNoErrorText(err: ErrorState)
    ensures WellFormed(err) ==> (err.code == NONE <==> err.message == NO_ERROR_TEXT)
  {
    if WellFormed(err) && err.code != NONE {
      // The message has a ':' right after the kind's name or numeral, and
      // "No Error" has none.
      var head := if err.code < COUNT then ErrorNames[err.code] else Decimal(err.code);
      assert Prefix(err.code) == head + ": ";
      assert err.message[|head|] == ':';
      if |head| < |NO_ERROR_TEXT| {
        assert forall i :: 0 <= i < |NO_ERROR_TEXT| ==> NO_ERROR_TEXT[i] != ':';
        assert err.message[|head|] != NO_ERROR_TEXT[|head|];
      } else {
        assert |err.message| > |NO_ERROR_TEXT|;
      }
    }
  }

  lemma HeadBeforeColon(head: string, m: string)
    requires forall i :: 0 <= i < |head| ==> head[i] != ':'
    requires head + ": " <= m
    ensures FirstColon(m) == |head| && m[..|head|] == head && m[|head| + 1] == ' '
  {
    assert m[|head|] == ':';
  }

  /** A message that starts with a code's prefix names that code: the
      prefix `qd_error` writes can be read back unambiguously. */
  lemma {:induction false} PrefixNamesCode(code: ErrorCode, m: string)
    requires code != NONE && Prefix(code) <= m
    ensures CodeOfMessage(m) == Some(code)
  {
    NameTable();
    if code < COUNT {
      var name := ErrorNames[code];
      HeadBeforeColon(name, m);
      var r := NameIndex(name, 1);
      assert r.Some?;
      assert ErrorNames[r.value] == ErrorNames[code];
    } else {
      HeadBeforeColon(Decimal(code), m);
      DecimalRoundTrip(code);
    }
  }

  /** Every raised message names the code it was raised with. */
  lemma MessageNamesCode(ctx: Context, code: ErrorCode, text: string)
    requires code != NONE
    ensures CodeOfMessage(Message(Raise(ctx, code, text).ctx)) == Some(code)
  {
    PrefixNamesCode(code, Message(Raise(ctx, code, text).ctx));
  }
}

=== FILE: polyfills.dfy ===
/** The three polyfills qdrService.js installs when the browser lacks them:
    `String.prototype.startsWith`, `String.prototype.endsWith` and
    `Array.prototype.findIndex`. Strings are character sequences, a numeric
    argument is `Some` finite number and a missing one is `None`. */
module Polyfills {
  import opened Wrappers

  function Min(a: int, b: int): int { if a <= b then a else b }
  function Max(a: int, b: int): int { if a >= b then a else b }

  /** ECMAScript's ToInteger on a finite number: truncation toward zero. */
  function ToInteger(x: real): (i: int)
    ensures x >= 0.0 ==> 0 <= i && i as real <= x < i as real + 1.0
    ensures x < 0.0 ==> i <= 0 && i as real - 1.0 < x <= i as real
  {
    if x >= 0.0 then x.Floor else -((-x).Floor)
  }

  /** `t` occurs in `s` starting at index `k`. */
  predicate OccursAt(s: string, t: string, k: int) {
    0 <= k && k + |t| <= |s| && s[k..k + |t|] == t
  }

  // startsWith

  /** Where `String.prototype.substr` starts: a negative start counts back
      from the end of the string, stopping at its beginning. */
  function SubstrStart(len: nat, start: int): (b: nat)
    ensures start >= 0 ==> b == start
    ensures start < 0 ==> b == Max(len + start, 0)
  {
    if start >= 0 then start else if len + start > 0 then len + start else 0
  }

  /** `s.substr(start, length)`: up to `length` characters of `s` from
      `SubstrStart`, fewer when the string ends first. */
  function Substr(s: string, start: int, length: nat): (r: string)
    ensures var b := SubstrStart(|s|, start);
            && |r| == Max(0, Min(length, |s| - b))
            && forall i :: 0 <= i < |r| ==> r[i] == s[b + i]
  {
    var b := SubstrStart(|s|, start);
    var n := Min(length, |s| - b);
    if n <= 0 then [] else s[b..b + n]
  }

  /** The start index `position || 0` hands to `substr`. */
  function StartArgument(position: Option<real>): int {
    match position
    case None => 0
    case Some(x) => ToInteger(x)
  }

  /** The polyfilled `s.startsWith(t, position)`: `t` is empty or occurs in
      `s` at the index `substr` starts from, so a negative position counts
      from the end of `s`. */
  function StartsWith(s: string, t: string, position: Option<real>): (r: bool)
    ensures r <==> |t| == 0 || OccursAt(s, t, SubstrStart(|s|, StartArgument(position)))
  {
    var b := SubstrStart(|s|, StartArgument(position));
    var sub := Substr(s, StartArgument(position), |t|);
    assert |t| > 0 && OccursAt(s, t, b) ==> sub == t by {
      if |t| > 0 && OccursAt(s, t, b) {
        assert |sub| == |t|;
        assert forall i :: 0 <= i < |t| ==> sub[i] == s[b..b + |t|][i];
      }
    }
    assert |t| > 0 && sub == t ==> OccursAt(s, t, b) by {
      if |t| > 0 && sub == t {
        assert s[b..b + |t|] == sub;
      }
    }
    sub == t
  }

  /** `startsWith` as section 21.1.3.18 of ECMA-262 (6th edition) defines it:
      the position is clamped to `[0, |s|]`. */
  function StartsWithStandard(s: string, t: string, position: Option<real>): (r: bool)
    ensures r <==> OccursAt(s, t, Min(Max(StartArgument(position), 0), |s|))
  {
    var start := Min(Max(StartArgument(position), 0), |s|);
    if |t| + start > |s| then false else s[start..start + |t|] == t
  }

  /** The polyfill agrees with the standard for absent and non-negative
      positions. */
  lemma StartsWithAgreesWhenNonNegative(s: string, t: string, position: Option<real>)
    requires position.None? || position.value >= 0.0
    ensures StartsWith(s, t, position) == StartsWithStandard(s, t, position)
  {
  }

  /** A negative position counts from the end in the polyfill: `"abc"`
      starts with `"c"` at position -1, which the standard denies. */
  lemma StartsWithNegativeCounterexample()
    ensures StartsWith("abc", "c", Some(-1.0))
    ensures !StartsWithStandard("abc", "c", Some(-1.0))
  {
    assert OccursAt("abc", "c", 2) by { assert "abc"[2..3] == "c"; }
    assert !OccursAt("abc", "c", 0) by { assert "abc"[0..1] == "a"; }
  }

  // endsWith

  /** The end position the `endsWith` polyfill uses: the given position when
      it is an integral number not beyond the string (so possibly negative),
      otherwise the length of the string. */
  function EndPosition(len: nat, position: Option<real>): (p: int)
    ensures p <= len
    ensures p == len || (position.Some? && p as real == position.value)
    ensures position.Some? && position.value.Floor as real == position.value && position.value <= len as real ==>
      p as real == position.value
  {
    match position
    case None => len
    case Some(x) => if x.Floor as real != x || x > len as real then len else x.Floor
  }

  /** `s.lastIndexOf(t, from)` (section 15.5.4.8 of ECMA-262, 5th edition)
      searches downward from `from` clamped to `[0, |s|]`. */
  function LastIndexOf(s: string, t: string, from: int): (r: int)
    ensures r == -1 || (0 <= r <= Max(from, 0) && OccursAt(s, t, r))
    ensures forall j :: r < j <= Min(Max(from, 0), |s|) ==> !OccursAt(s, t, j)
  {
    LastIndexFrom(s, t, Min(Max(from, 0), |s|))
  }

  /** The last occurrence of `t` in `s` starting at or before `k`, or -1. */
  function LastIndexFrom(s: string, t: string, k: int): (r: int)
    ensures r == -1 || (0 <= r <= k && OccursAt(s, t, r))
    ensures forall j :: r < j <= k ==> !OccursAt(s, t, j)
    decreases if k < 0 then 0 else k + 1
  {
    if k < 0 then -1
    else if OccursAt(s, t, k) then k
    else LastIndexFrom(s, t, k - 1)
  }

  /** The polyfilled `s.endsWith(t, position)`: `t` ends exactly at the end
      position, that is, `t` is a suffix of `s[..end]`. */
  function EndsWith(s: string, t: string, position: Option<real>): (r: bool)
    ensures var end := EndPosition(|s|, position);
            r <==> |t| <= end && OccursAt(s, t, end - |t|)
  {
    var pos := EndPosition(|s|, position) - |t|;
    var last := LastIndexOf(s, t, pos);
    last != -1 && last == pos
  }

  /** `endsWith` as section 21.1.3.6 of ECMA-262 (6th edition) defines it: the
      position is truncated to an integer and clamped to `[0, |s|]`. */
  function EndsWithStandard(s: string, t: string, position: Option<real>): (r: bool)
    ensures var end := match position case None => |s| case Some(x) => Min(Max(ToInteger(x), 0), |s|);
            r <==> |t| <= end && OccursAt(s, t, end - |t|)
  {
    var end := match position case None => |s| case Some(x) => Min(Max(ToInteger(x), 0), |s|);
    var start := end - |t|;
    if start < 0 then false else s[start..end] == t
  }

  /** The polyfill agrees with the standard for absent positions and for
      non-negative integral ones. */
  lemma EndsWithAgreesWhenIntegral(s: string, t: string, position: Option<real>)
    requires position.Some? ==> position.value >= 0.0 && position.value.Floor as real == position.value
    ensures EndsWith(s, t, position) == EndsWithStandard(s, t, position)
  {
    if position.Some? {
      var x := position.value;
      assert ToInteger(x) == x.Floor;
      assert EndPosition(|s|, position) == Min(Max(ToInteger(x), 0), |s|);
    }
  }

  /** Two inputs on which the polyfill and the standard disagree: a negative
      position with an empty search string, and a fractional position. */
  lemma EndsWithCounterexamples()
    ensures !EndsWith("abc", "", Some(-1.0)) && EndsWithStandard("abc", "", Some(-1.0))
    ensures !EndsWith("abc", "a", Some(1.5)) && EndsWithStandard("abc", "a", Some(1.5))
  {
    assert EndPosition(3, Some(-1.0)) == -1;
    assert OccursAt("abc", "", 0) by { assert "abc"[0..0] == ""; }
    assert EndPosition(3, Some(1.5)) == 3;
    assert !OccursAt("abc", "a", 2) by { assert "abc"[2..3] == "c"; }
    assert ToInteger(1.5) == 1;
    assert OccursAt("abc", "a", 0) by { assert "abc"[0..1] == "a"; }
  }

  // findIndex

  /** The `TypeError`s `findIndex` throws. */
  datatype TypeError = ThisNullOrUndefined | PredicateNotCallable

  /** `ToUint32`, which `o.length >>> 0` applies to the length. */
  function ToUint32(n: nat): (r: nat)
    ensures r <= n && r < 0x1_0000_0000
    ensures n < 0x1_0000_0000 ==> r == n
  {
    n % 0x1_0000_0000
  }

  /** The polyfilled `o.findIndex(predicate)`. A null or undefined receiver
      throws first, then a predicate that is not a function. Otherwise the
      result is the least index whose element satisfies the predicate,
      called with the element, its index and the array, or -1 when none
      does. */
  method FindIndex<T>(receiver: Option<seq<T>>, predicateArg: Option<(T, nat, seq<T>) -> bool>)
    returns (r: Result<int, TypeError>)
    ensures receiver.None? <==> r == Failure(ThisNullOrUndefined)
    ensures receiver.Some? && predicateArg.None? <==> r == Failure(PredicateNotCallable)
    ensures receiver.Some? && predicateArg.Some? ==>
      var o := receiver.value;
      var len := ToUint32(|o|);
      && r.Success?
      && -1 <= r.value < len
      && (r.value >= 0 ==> predicateArg.value(o[r.value], r.value, o))
      && (forall j :: 0 <= j < len && (r.value == -1 || j < r.value) ==> !predicateArg.value(o[j], j, o))
      && (r.value == -1 <==> forall j :: 0 <= j < len ==> !predicateArg.value(o[j], j, o))
  {
    if receiver.None? {
      return Failure(ThisNullOrUndefined);
    }
    var o := receiver.value;
    var len := ToUint32(|o|);
    if predicateArg.None? {
      return Failure(PredicateNotCallable);
    }
    var callback := predicateArg.value;
    var k := 0;
    while k < len
      invariant 0 <= k <= len
      invariant forall j :: 0 <= j < k ==> !callback(o[j], j, o)
    {
      if callback(o[k], k, o) {
        return Success(k);
      }
      k := k + 1;
    }
    return Success(-1);
  }
}

=== FILE: text.dfy ===
/** Decimal numerals and bounded string buffers: the parts of printf-style
    formatting (`%d`, `snprintf` truncation) that the error module relies on. */
module Text {
  import opened Wrappers

  predicate IsDigit(c: char) {
    '0' <= c <= '9'
  }

  predicate AllDigits(s: string) {
    forall i :: 0 <= i < |s| ==> IsDigit(s[i])
  }

  function DigitValue(c: char): nat
    requires IsDigit(c)
  {
    c as int - '0' as int
  }

  function DigitChar(d: nat): (c: char)
    requires d < 10
    ensures IsDigit(c) && DigitValue(c) == d
  {
    ('0' as int + d) as char
  }

  function Pow10(k: nat): (p: nat)
    ensures p >= 1
  {
    if k == 0 then 1 else 10 * Pow10(k - 1)
  }

  /** The numeral `%d` prints for a non-negative number: at least one digit,
      and a leading zero only for zero itself. */
  function Decimal(n: nat): (r: string)
    ensures 0 < |r| && AllDigits(r)
    ensures (r[0] == '0') == (n == 0)
    decreases n
  {
    if n < 10 then [DigitChar(n)] else Decimal(n / 10) + [DigitChar(n % 10)]
  }

  /** The value of a digit string, most significant digit first. */
  function ParseDigits(s: string): nat
    requires AllDigits(s)
  {
    if s == [] then 0 else ParseDigits(s[..|s| - 1]) * 10 + DigitValue(s[|s| - 1])
  }

  /** Reads back a numeral; fails on the empty string or on any non-digit. */
  function ParseDecimal(s: string): (r: Option<nat>)
    ensures r.Some? <==> 0 < |s| && AllDigits(s)
  {
    if 0 < |s| && AllDigits(s) then Some(ParseDigits(s)) else None
  }

  /** Printing a number and reading it back gives the number. */
  lemma {:induction false} DecimalRoundTrip(n: nat)
    ensures ParseDecimal(Decimal(n)) == Some(n)
  {
    var s := Decimal(n);
    if n < 10 {
      assert s == [DigitChar(n)];
      assert s[..0] == [];
      assert ParseDigits(s) == ParseDigits([]) * 10 + DigitValue(s[0]);
    } else {
      DecimalRoundTrip(n / 10);
      assert s[..|s| - 1] == Decimal(n / 10);
    }
  }

  /** A number below 10^k prints in at most k digits. */
  lemma {:induction false} DecimalLength(n: nat, k: nat)
    requires 1 <= k && n < Pow10(k)
    ensures |Decimal(n)| <= k
  {
    if n >= 10 {
      DecimalLength(n / 10, k - 1);
    }
  }

  /** The text `%ld` (or Python's `str`) prints for any integer. */
  function SignedDecimal(i: int): string {
    if i < 0 then "-" + Decimal(-i) else Decimal(i)
  }

  /** A string with no NUL character, which a C string keeps whole. */
  predicate NoNul(s: string) {
    forall k :: 0 <= k < |s| ==> s[k] != '\0'
  }

  /** What a C string sees of `s`: the part before the first NUL, which is
      all that `strdup` copies and `%s` prints. */
  function CString(s: string): (r: string)
    ensures r <= s && NoNul(r)
    ensures |r| < |s| ==> s[|r|] == '\0'
  {
    if |s| == 0 || s[0] == '\0' then "" else [s[0]] + CString(s[1..])
  }

  /** A string without NUL passes through a C string unchanged, and one
      with a NUL loses everything from it on. */
  lemma CStringKeepsPlain(s: string)
    ensures NoNul(s) <==> CString(s) == s
  {
  }

  /** What a bounded buffer of `n` characters (plus terminator) keeps of `s`. */
  function Truncate(s: string, n: nat): (r: string)
    ensures r <= s
    ensures |r| == if |s| <= n then |s| else n
  {
    if |s| <= n then s else s[..n]
  }

  /** The elements of `parts` separated by `sep`. */
  function Join(parts: seq<string>, sep: string): string {
    if |parts| == 0 then ""
    else if |parts| == 1 then parts[0]
    else parts[0] + sep + Join(parts[1..], sep)
  }
}

=== FILE: wrappers.dfy ===
/** Two small sum types used throughout the model: an optional value (a C
    null pointer or a JavaScript `undefined`) and a result that is either a
    value or an error (a raised Python or thrown JavaScript exception). */
module Wrappers {

  datatype Option<+T> = None | Some(value: T)

  datatype Result<+R, +E> = Success(value: R) | Failure(error: E)
}
